=== FILE: README.md ===
# GitHub top-repositories scraper and ClickHouse batch writer: a Dafny model

This project models the data-shaping core of the scraper in `task2_and_task3/`:

- how `GithubReposScraper` turns the GitHub search response into `Repository` records;
- how it tallies commits per author;
- how it numbers repositories by their place in the search response;
- how `main` assembles three row sets stamped with one timestamp;
- how `ClickHouseManager` writes each row set in fixed-size batches.

Network access, the rate limiter and the asyncio runtime are not modelled. The GitHub API appears as inputs:

- `search` is the decoded search response, or the failure of that request;
- `fetch` maps `(owner, name)` to the decoded commit list, or to a failure.

The ClickHouse client is a `Sink`. The sink decides which `execute` call, if any, is rejected, by its index. The calls issued are returned as a log by `ClickHouse.InsertBatches` and `ClickHouse.ExecuteQuery`.

Modules, one per concern:

- `Wrappers` (`wrappers.dfy`): `Option`, `Result` and `Outcome`.
- `Errors` (`errors.dfy`): the Python exceptions the core can raise (`KeyError`, `AttributeError`, `TypeError`, `ValueError`, a failed request, a rejected batch).
- `Json` (`json.dfy`): decoded JSON values, Python truthiness and `dict.get` with a default.
- `Commits` (`commits.dfy`): the per-author tally of `_process_repository`.
- `Scraper` (`scraper.dfy`): field extraction, `items` selection, and the all-or-nothing numbered collection of `get_repositories`.
- `Rows` (`rows.dfy`): the three row comprehensions of `main`.
- `ClickHouse` (`clickhouse.dfy`): the `save_*` methods and the batching loop of `_execute_query`.
- `Pipeline` (`pipeline.dfy`): one run of `main`.

The documented intent of the system differs from the code in two places. The model follows the code:

- **Unattributed commits.** The documented intent is that commits without an attributable author are counted under "unknown" and never dropped, so the counts sum to the length of the commit list. The code skips any commit whose `author` is missing, `null` or otherwise falsy; an empty object `{}` counts as falsy. Only a non-empty `author` object without `login` is counted under "unknown". So the counts sum to the number of attributed commits. `Commits.NullAuthorExample` shows this on four commits by a, a, a null author and b, with each author written as a GitHub user object. Written instead with bare strings (`"author": "a"`), the same list makes `commit["author"].get` raise `AttributeError` (`Commits.StringAuthorExample`).
- **Malformed records.** The documented intent is a single "malformed repository record" error. The code raises `KeyError` for a missing key, `TypeError` when `owner` is not a dict, and `AttributeError` when a record is not a dict. The model keeps these distinct (`Scraper.MalformedRecordError`).

One edge case is not covered by the documentation at all:

- **Batch size.** A batch size of zero makes `range` raise `ValueError` before anything is sent. A negative batch size makes the range empty: nothing is sent and no error is raised. The model keeps both behaviours (`ClickHouse.ExecuteQuery`). The batching loop itself, `ClickHouse.InsertBatches`, requires a positive batch size.

## Model

| member | source | states |
|---|---|---|
| `Commits.CountAuthorsCorrect` | task2_and_task3/main.py:107-113 | On success: authors are distinct, in first-appearance order, with counts equal to their number of attributed commits and at least 1. Counts sum to the number of attributed commits, at most `len(commits)`. `[]` gives `[]`. The tally succeeds exactly when the attributed-key sequence does. |
| `Commits.CountAuthorsFailure` | task2_and_task3/main.py:107-113 | The tally succeeds exactly when every commit can be keyed. Otherwise it fails with the first bad commit's error, so no partial tally is returned. |
| `Commits.CountAuthors` | task2_and_task3/main.py:107-113 | The loop and the list conversion as a left fold that stops at the first commit that raises. A successful tally has at most one entry per commit. |
| `Commits.AuthorKey` | task2_and_task3/main.py:109-110 | A dict commit is skipped exactly when its `author` is missing or falsy. A commit that is counted has a truthy `author` and a hashable key. |
| `Commits.LoginAuthorCountsUnderLogin` | task2_and_task3/main.py:110-111 | A commit whose `author` object holds a hashable `login` adds one to that login's count and leaves every other author's count unchanged. |
| `Commits.Bump` | task2_and_task3/main.py:111 | After the update the author has an entry. The tally grows by one entry exactly when the author is new. |
| `Commits.CountAuthorsTallies` | task2_and_task3/main.py:107-113 | The left fold over the commits succeeds exactly when the attributed-key sequence does, with the same error, and its result satisfies `Tallies` against that sequence. |
| `Commits.TalliesStep` | task2_and_task3/main.py:111 | One `authors_count[author] = authors_count.get(author, 0) + 1` on an insertion-ordered dict keeps every tally property for the key sequence extended by `author`. |
| `Commits.BumpAuthors` | task2_and_task3/main.py:111 | Updating a dict entry keeps the key order; inserting a new key appends it at the end. |
| `Commits.BumpCountFor` | task2_and_task3/main.py:111 | The update adds one to the updated author's count and leaves every other author's count unchanged. |
| `Commits.BumpTotal` | task2_and_task3/main.py:111 | Each update raises the sum of counts by exactly one. |
| `Commits.AttributedLogins` | task2_and_task3/main.py:108-110 | The keys the commits are counted under number exactly the commits with a truthy `author`, at most `len(commits)`. |
| `Commits.AttributedLoginsFailure` | task2_and_task3/main.py:108-111 | Keying the commits fails exactly when some commit cannot be keyed (not a dict, a non-dict truthy `author`, an unhashable login), and then with the first such commit's error. |
| `Commits.UnattributedCommitIsSkipped` | task2_and_task3/main.py:109 | A commit whose `author` is missing, null or falsy changes no count. |
| `Commits.LoginlessAuthorCountsAsUnknown` | task2_and_task3/main.py:110 | A commit whose non-empty `author` has no `login` adds one to the count of "unknown" and leaves every other author's count unchanged. |
| `Commits.NullAuthorExample` | task2_and_task3/main.py:107-113 | Commits by a, a, a null author and b tally to a:2, b:1, with no "unknown" entry. |
| `Commits.StringAuthorExample` | task2_and_task3/main.py:109-110 | With `author` written as a bare string, `commit["author"].get` raises, and the tally fails with `AttributeError`. |
| `Scraper.ProcessRepository` | task2_and_task3/main.py:98-131 | Success needs a dict with `owner.login`, `stargazers_count`, `watchers_count` and `forks_count`. The result carries the given position and those values unchanged. `name` and `language` default only when the key is absent, so a present null stays null. The authors are the tally of the fetched commits. |
| `Scraper.ProcessRepositorySucceeds` | task2_and_task3/main.py:98-131 | Conversely, a dict with every required field succeeds when its commits request succeeds and all its commits can be keyed. |
| `Scraper.MalformedRecordError` | task2_and_task3/main.py:98-131 | A non-dict record raises `AttributeError`. A missing `owner` or `login` raises `KeyError` of that key, and a non-dict owner raises `TypeError`, before any fetch. A failed commits request passes on its error. Once the fetch and the tally succeed, the first missing count field raises `KeyError` of that key. |
| `Scraper.SearchItems` | task2_and_task3/main.py:81-83 | A search response without `items` gives the empty list; a list-valued `items` is taken as it is. |
| `Scraper.AbsentItemsYieldNothing` | task2_and_task3/main.py:133-137 | A search response without `items` makes `get_repositories` return the empty list. |
| `Scraper.GatherSpec` | task2_and_task3/main.py:136-137 | The gathered collection succeeds exactly when every task does, and then holds each task's result in item order, item i processed with position `first + i`. Otherwise it fails with the first failing task's error, so there is no partial result. |
| `Scraper.Gather` | task2_and_task3/main.py:136-137 | The sequential `gather`: a successful collection holds one result per item. |
| `Scraper.GetRepositories` | task2_and_task3/main.py:133-137 | A failed search request is the collection's failure. A successful collection has exactly one repository per search item. |
| `Scraper.PositionsFollowResponseOrder` | task2_and_task3/main.py:133-137 | A successful collection has one repository per search item, in response order, the one at index i processed with position i + 1, so positions are exactly 1..n ascending. |
| `Scraper.MissingFieldAbortsCollection` | task2_and_task3/main.py:98-137 | One search item that lacks `owner.login`, `stargazers_count`, `watchers_count` or `forks_count`, or is not a dict, makes the whole collection fail. |
| `Rows.CommitRows` | task2_and_task3/main.py:155 | There is one commit row per author entry of every repository, and every row carries the run timestamp. |
| `Rows.CommitRowsCover` | task2_and_task3/main.py:155 | Every (repository, author entry) pair has its row, and every row is the row of such a pair. |
| `Rows.RepositoryRows` | task2_and_task3/main.py:153 | There is one repository row per repository. |
| `Rows.PositionRows` | task2_and_task3/main.py:154 | There is one position row per repository. |
| `Pipeline.RowsOfCollection` | task2_and_task3/main.py:150-155 | For a successful collection: repository and position rows are aligned one per repository; positions are 1..n in response order; every row of all three sets carries the same timestamp; the commit-row count is the total number of author entries; no repository lists an author twice. |
| `Pipeline.FirstFailure` | task2_and_task3/main.py:157-161 | The three saves together pass exactly when each passes; otherwise the outcome is one of their failures. |
| `Pipeline.Run` | task2_and_task3/main.py:144-161 | A failed collection sends nothing to any table and is the run's failure. Otherwise each table gets exactly what its `save_*` sends for its row set, and the run fails exactly when one of the saves does. |
| `Pipeline.StoredPositions` | task2_and_task3/main.py:150-161 | After a successful save with a positive batch size, the stored position rows number the search items and carry positions 1..n in order, all with the run timestamp. |
| `ClickHouse.ChunksLength` | task2_and_task3/db_actions.py:41-43 | The input splits into exactly ceil(n / b) batches. |
| `ClickHouse.ChunksFlatten` | task2_and_task3/db_actions.py:41-43 | Concatenating the batches in order reproduces the input. |
| `ClickHouse.ChunksSizes` | task2_and_task3/db_actions.py:41-42 | Every batch is non-empty with at most b rows, and every batch but the last has exactly b rows. |
| `ClickHouse.ChunksIndex` | task2_and_task3/db_actions.py:41-42 | Batch j is the slice `values[j*b : j*b + b]`, clipped to the input, and starts inside it. |
| `ClickHouse.CeilDivUnique` | task2_and_task3/db_actions.py:41 | k batches of b rows cover n rows, the last one starting inside them, if and only if k = ceil(n / b). |
| `ClickHouse.InsertBatches` | task2_and_task3/db_actions.py:38-46 | Every call carries the query, and the calls are the reference batches in order. If the sink accepts all ceil(n/b) calls, that many are issued and their rows concatenate to the input. If it rejects call k, calls 0..k are issued (the rejected one last), nothing after, the error propagates, and exactly the first min((k+1)·b, n) rows were sent. |
| `ClickHouse.ExecuteQuery` | task2_and_task3/db_actions.py:38-46 | Like `InsertBatches` for a positive batch size. A zero batch size raises `ValueError` with no call. A negative one sends nothing and succeeds. |
| `ClickHouse.Save` | task2_and_task3/db_actions.py:14-36 | The guard shared by the three saves: an empty list returns before any `execute` call. Otherwise the rows go unchanged to `_execute_query` with the given INSERT. |
| `ClickHouse.SaveRepositories` | task2_and_task3/db_actions.py:14-20 | An empty list issues no `execute` call and succeeds. Otherwise the rows go to `_execute_query` unchanged, every call with the `test.repositories` INSERT. |
| `ClickHouse.SavePositions` | task2_and_task3/db_actions.py:22-28 | An empty list issues no call. Otherwise every call carries the `test.repositories_positions` INSERT, as `_execute_query` does. |
| `ClickHouse.SaveCommits` | task2_and_task3/db_actions.py:30-36 | An empty list issues no call. Otherwise every call carries the `test.repositories_authors_commits` INSERT, as `_execute_query` does. |

## Left out

- The rate limiter and semaphore (task2_and_task3/main.py:54-55, 63). Their purpose is concurrency and wall-clock pacing, which have no meaning in a sequential model.
- The HTTP session, URL building, headers, `raise_for_status` and JSON decoding in `_make_request` (task2_and_task3/main.py:57-70). This is network I/O. Responses and request failures are inputs (`search`, `fetch`).
- The `since` timestamp and `per_page=100` of `_get_repository_commits` (task2_and_task3/main.py:85-96). The clock and the API's 100-commit truncation belong to the remote side; `fetch` returns whatever commit list the API gave.
- A commits response that is not a JSON list. `fetch` returns a sequence, so iterating a dict's keys or calling `len` on a scalar is not modelled.
- `datetime.now` and the timestamp format (task2_and_task3/main.py:151). The run timestamp is an opaque string input.
- The concurrency of `asyncio.gather` (task2_and_task3/main.py:137, 157-161). Tasks run one after another. The error reported is the first in list order, whereas Python reports the first raised in time; when only one task fails, the two agree.
- The ChClient internals and its serialisation of rows (task2_and_task3/db_actions.py:11-12, 43). The client is a sink that sees each batch unchanged.
- Which `execute` call fails. Each save call has its own sink with at most one rejected call index; a sink that rejects several calls behaves like one rejecting the first of them, since the loop stops there.
- All logging, `close()`, and the `try`/`finally` cleanup.
- `task1/` (the FastAPI status endpoint and its connection pool) and `task2_and_task3/config.py` (environment reads). The configured values, the batch size among them, are parameters.
- `Commits.AuthorKey`: JSON booleans and integers are distinct keys here. Python's dict would merge `True` with `1` and `False` with `0`. Logins from the commits API are strings.
- JSON floating-point numbers: the `Json` type has integers only.
- `Pipeline.Run`: each save runs to its own end against its own sink. In `main`, once one save raises, `gather` passes the exception on. The `finally` then closes the ClickHouse session (task2_and_task3/main.py:163-165), and `asyncio.run` cancels whatever is still pending. So a sibling save may stop after any of its batches, leaving only a prefix of its rows stored, even though its client never rejected a batch. The model shows such a prefix only when that sibling's sink is chosen to reject the batch in flight.

=== FILE: clickhouse.dfy ===
/** `ClickHouseManager` (task2_and_task3/db_actions.py): the three `save_*` methods and
    the batching loop of `_execute_query`. The ClickHouse client is a sink that decides
    which `execute` call fails: the one with index `failAt`, if any. The calls issued
    are returned as a log. */
module ClickHouse {
  import opened Wrappers
  import opened Errors

  const RepositoriesQuery: string :=
    "INSERT INTO test.repositories (name, owner, stars, watchers, forks, language, updated) VALUES"
  const PositionsQuery: string :=
    "INSERT INTO test.repositories_positions (date, repo, position) VALUES"
  const CommitsQuery: string :=
    "INSERT INTO test.repositories_authors_commits (date, repo, author, commits_num) VALUES"

  /** One `self._ch_client.execute(query, *batch)` call. */
  datatype Execute<T> = Execute(query: string, rows: seq<T>)

  /** The ClickHouse client during one save call: `execute` call number `failAt`
      (counting from 0) raises; every other call succeeds. */
  datatype Sink = Sink(failAt: Option<nat>) {
    predicate Rejects(call: nat) {
      failAt == Some(call)
    }
  }

  function Min(a: int, b: int): int {
    if a <= b then a else b
  }

  /** `ceil(n / b)`. */
  function NumBatches(n: nat, b: nat): nat
    requires b > 0
  {
    (n + b - 1) / b
  }

  /** The row batches of a list of calls, in call order. */
  function Batches<T>(calls: seq<Execute<T>>): (r: seq<seq<T>>)
    ensures |r| == |calls|
  {
    seq(|calls|, i requires 0 <= i < |calls| => calls[i].rows)
  }

  /** The rows of a list of calls, concatenated in call order. */
  function Concat<T>(calls: seq<Execute<T>>): seq<T> {
    Flatten(Batches(calls))
  }

  lemma ConcatSnoc<T>(calls: seq<Execute<T>>, call: Execute<T>)
    ensures Concat(calls + [call]) == Concat(calls) + call.rows
  {
    assert Batches(calls + [call]) == Batches(calls) + [call.rows];
    FlattenSnoc(Batches(calls), call.rows);
  }

  /** Reference definition of the batches: the first `b` rows, then the batches of the rest. */
  function Chunks<T>(values: seq<T>, b: nat): (r: seq<seq<T>>)
    requires b > 0
    decreases |values|
  {
    if |values| == 0 then []
    else if |values| <= b then [values]
    else [values[..b]] + Chunks(values[b..], b)
  }

  /** The concatenation of a list of batches. */
  function Flatten<T>(batches: seq<seq<T>>): seq<T> {
    if |batches| == 0 then [] else batches[0] + Flatten(batches[1..])
  }

  /** Appending one batch appends its rows. */
  lemma {:induction false} FlattenSnoc<T>(batches: seq<seq<T>>, last: seq<T>)
    ensures Flatten(batches + [last]) == Flatten(batches) + last
  {
    if |batches| == 0 {
      assert batches + [last] == [last];
      assert Flatten([last]) == last + Flatten([last][1..]);
    } else {
      assert (batches + [last])[1..] == batches[1..] + [last];
      FlattenSnoc(batches[1..], last);
    }
  }

  // ---------------------------------------------------------------------------
  // Arithmetic of ceil(n / b)

  lemma MulLe(a: int, c: int, b: int)
    requires 0 <= a <= c && b > 0
    ensures a * b <= c * b
  {
  }

  lemma DivUnique(x: int, b: int, k: int)
    requires 0 <= x && b > 0 && 0 <= k
    requires k * b <= x < k * b + b
    ensures x / b == k
  {
    var q := x / b;
    assert q * b <= x < q * b + b;
    if q < k {
      MulLe(q + 1, k, b);
    } else if q > k {
      MulLe(k + 1, q, b);
    }
  }

  /** `k` batches of `b` rows cover `n` rows, the last of them starting inside the rows,
      exactly when `k` is ceil(n / b). */
  lemma CeilDivUnique(n: nat, b: nat, k: nat)
    requires b > 0
    ensures (n <= k * b && (k == 0 || (k - 1) * b < n)) <==> k == NumBatches(n, b)
  {
    var q := NumBatches(n, b);
    assert q * b <= n + b - 1 < q * b + b;
    assert q * b - b == (q - 1) * b;
    if n <= k * b && (k == 0 || (k - 1) * b < n) {
      if k == 0 {
        assert n == 0;
      } else {
        assert (k - 1) * b == k * b - b;
        DivUnique(n + b - 1, b, k);
      }
    }
  }

  /** A batch starting below `n` is one of the ceil(n / b) batches. */
  lemma BelowNumBatches(n: nat, b: nat, k: nat)
    requires b > 0
    requires k * b < n
    ensures k < NumBatches(n, b)
  {
    var q := NumBatches(n, b);
    assert q * b <= n + b - 1 < q * b + b;
    if q <= k {
      MulLe(q, k, b);
    }
  }

  // ---------------------------------------------------------------------------
  // Properties of the reference batches

  lemma {:induction false} ChunksLength<T>(values: seq<T>, b: nat)
    requires b > 0
    ensures |Chunks(values, b)| == NumBatches(|values|, b)
    decreases |values|
  {
    if |values| == 0 {
    } else if |values| <= b {
      DivUnique(|values| + b - 1, b, 1);
    } else {
      var rest := values[b..];
      ChunksLength(rest, b);
      var k := NumBatches(|rest|, b);
      assert k * b <= |rest| + b - 1 < k * b + b;
      assert (k + 1) * b == k * b + b;
      DivUnique(|values| + b - 1, b, k + 1);
    }
  }

  /** Concatenating the batches gives the input back. */
  lemma {:induction false} ChunksFlatten<T>(values: seq<T>, b: nat)
    requires b > 0
    ensures Flatten(Chunks(values, b)) == values
    decreases |values|
  {
    if |values| == 0 {
    } else if |values| <= b {
      assert Flatten([values]) == values + Flatten([values][1..]);
    } else {
      var rest := values[b..];
      ChunksFlatten(rest, b);
      var c := Chunks(values, b);
      assert c[1..] == Chunks(rest, b);
      assert values[..b] + rest == values;
    }
  }

  /** Every batch is non-empty and holds at most `b` rows; all but the last hold exactly `b`. */
  lemma {:induction false} ChunksSizes<T>(values: seq<T>, b: nat)
    requires b > 0
    ensures forall j :: 0 <= j < |Chunks(values, b)| ==> 0 < |Chunks(values, b)[j]| <= b
    ensures forall j :: 0 <= j < |Chunks(values, b)| - 1 ==> |Chunks(values, b)[j]| == b
    decreases |values|
  {
    if |values| > b {
      var rest := values[b..];
      ChunksSizes(rest, b);
      var c := Chunks(values, b);
      assert forall j :: 1 <= j < |c| ==> c[j] == Chunks(rest, b)[j - 1];
    }
  }

  /** Batch j holds rows j*b up to (j+1)*b, clipped to the input, as the slice
      `values[i:i + batch_size]` does. */
  lemma {:induction false} ChunksIndex<T>(values: seq<T>, b: nat, j: nat)
    requires b > 0
    requires j < |Chunks(values, b)|
    ensures j * b < |values|
    ensures Chunks(values, b)[j] == values[j * b .. Min(j * b + b, |values|)]
    decreases |values|
  {
    var c := Chunks(values, b);
    if j == 0 {
      if |values| <= b {
        assert c == [values];
      } else {
        assert c[0] == values[..b];
      }
    } else {
      var rest := values[b..];
      assert |values| > b && c == [values[..b]] + Chunks(rest, b);
      ChunksIndex(rest, b, j - 1);
      var m := (j - 1) * b;
      var hi := Min(m + b, |rest|);
      assert m + b == j * b;
      assert c[j] == Chunks(rest, b)[j - 1] == rest[m .. hi];
      assert hi + b == Min(j * b + b, |values|);
      SuffixSlice(values, b, m, hi);
    }
  }

  lemma SuffixSlice<T>(values: seq<T>, b: nat, lo: nat, hi: nat)
    requires b <= |values| && lo <= hi <= |values| - b
    ensures values[b..][lo .. hi] == values[b + lo .. b + hi]
  {
  }

  /** What the loop of `_execute_query` does with a positive batch size `b`: the issued calls
      are a prefix of the ceil(n/b) reference batches, each non-empty with at most `b` rows
      and all but the last with exactly `b`; every call goes through unless the sink rejects
      one of the ceil(n/b) calls, and then the rejected call is the last one issued and its
      error is the outcome; when all go through, the batches concatenate to the input. */
  ghost predicate Batched<T>(values: seq<T>, b: nat, sink: Sink, calls: seq<Execute<T>>, outcome: Outcome<Error>)
    requires b > 0
  {
    && |calls| <= |Chunks(values, b)|
    && (forall j :: 0 <= j < |calls| ==> calls[j].rows == Chunks(values, b)[j])
    && (forall j :: 0 <= j < |calls| ==> 0 < |calls[j].rows| <= b)
    && (forall j :: 0 <= j < |calls| - 1 ==> |calls[j].rows| == b)
    && (outcome.Pass? <==> forall k :: 0 <= k < NumBatches(|values|, b) ==> !sink.Rejects(k))
    && (outcome.Pass? ==> |calls| == NumBatches(|values|, b) && Concat(calls) == values)
    && (outcome.Fail? ==>
          && |calls| > 0
          && outcome.error == StorageError(|calls| - 1)
          && sink.failAt == Some(|calls| - 1)
          && Concat(calls) == values[..Min(|calls| * b, |values|)])
  }

  /** The facts the batching loop establishes at its two exits suffice for `Batched`. */
  lemma BatchedOnExit<T>(values: seq<T>, b: nat, sink: Sink, calls: seq<Execute<T>>, outcome: Outcome<Error>)
    requires b > 0
    requires |calls| <= |Chunks(values, b)| == NumBatches(|values|, b)
    requires forall j :: 0 <= j < |calls| ==> calls[j].rows == Chunks(values, b)[j]
    requires Concat(calls) == values[..Min(|calls| * b, |values|)]
    requires outcome.Pass? ==> |calls| == NumBatches(|values|, b) && |calls| * b >= |values|
    requires outcome.Pass? ==> forall k :: 0 <= k < |calls| ==> !sink.Rejects(k)
    requires outcome.Fail? ==> |calls| > 0 && sink.Rejects(|calls| - 1) && outcome.error == StorageError(|calls| - 1)
    ensures Batched(values, b, sink, calls, outcome)
  {
    ChunksSizes(values, b);
    if outcome.Pass? {
      assert values[..Min(|calls| * b, |values|)] == values;
    } else {
      assert sink.Rejects(|calls| - 1) && |calls| - 1 < NumBatches(|values|, b);
    }
  }

  /** The loop of `_execute_query` for a positive batch size: `range(0, len(values), b)`
      with one `execute` per slice `values[i:i + b]`, in order; the first rejected call
      aborts the loop and its error propagates. The returned calls are the ones issued,
      including the rejected one. */
  method InsertBatches<T>(query: string, values: seq<T>, b: nat, sink: Sink)
    returns (calls: seq<Execute<T>>, outcome: Outcome<Error>)
    requires b > 0
    ensures forall c :: c in calls ==> c.query == query
    ensures Batched(values, b, sink, calls, outcome)
  {
    ChunksLength(values, b);
    calls := [];
    var i := 0;
    while i < |values|
      invariant i == |calls| * b
      invariant |calls| == 0 || (|calls| - 1) * b < |values|
      invariant forall c :: c in calls ==> c.query == query
      invariant |calls| <= |Chunks(values, b)|
      invariant forall j :: 0 <= j < |calls| ==> calls[j].rows == Chunks(values, b)[j]
      invariant Concat(calls) == values[..Min(i, |values|)]
      invariant forall k :: 0 <= k < |calls| ==> !sink.Rejects(k)
      invariant |Chunks(values, b)| == NumBatches(|values|, b)
    {
      BelowNumBatches(|values|, b, |calls|);
      ChunksIndex(values, b, |calls|);
      var batch := values[i..Min(i + b, |values|)];
      var call := Execute(query, batch);
      ConcatSnoc(calls, call);
      assert values[..i] + batch == values[..Min(i + b, |values|)];
      assert (|calls| + 1) * b == i + b;
      calls := calls + [call];
      if sink.Rejects(|calls| - 1) {
        outcome := Fail(StorageError(|calls| - 1));
        BatchedOnExit(values, b, sink, calls, outcome);
        return;
      }
      i := i + b;
    }
    CeilDivUnique(|values|, b, |calls|);
    outcome := Pass;
    BatchedOnExit(values, b, sink, calls, outcome);
  }

  /** What `_execute_query(query, values, batch_size)` does for any integer batch size:
      every call carries `query`; `range` with a zero step raises `ValueError` before any
      call; a negative step makes the range empty, so nothing is sent and nothing fails;
      a positive one batches as `Batched` says. */
  ghost predicate Executed<T>(query: string, values: seq<T>, batchSize: int, sink: Sink,
                              calls: seq<Execute<T>>, outcome: Outcome<Error>)
  {
    && (forall c :: c in calls ==> c.query == query)
    && (batchSize == 0 ==> calls == [] && outcome == Fail(ValueError))
    && (batchSize < 0 ==> calls == [] && outcome == Pass)
    && (batchSize > 0 ==> Batched(values, batchSize, sink, calls, outcome))
  }

  /** `_execute_query`. */
  method ExecuteQuery<T>(query: string, values: seq<T>, batchSize: int, sink: Sink)
    returns (calls: seq<Execute<T>>, outcome: Outcome<Error>)
    ensures Executed(query, values, batchSize, sink, calls, outcome)
  {
    if batchSize == 0 {
      calls, outcome := [], Fail(ValueError);
    } else if batchSize < 0 {
      calls, outcome := [], Pass;
    } else {
      calls, outcome := InsertBatches(query, values, batchSize, sink);
    }
  }

  /** What a `save_*` method does: nothing at all on an empty list, otherwise one
      `_execute_query` against its fixed INSERT statement. */
  ghost predicate Saved<T>(query: string, rows: seq<T>, batchSize: int, sink: Sink,
                           calls: seq<Execute<T>>, outcome: Outcome<Error>)
  {
    && (|rows| == 0 ==> calls == [] && outcome == Pass)
    && (|rows| > 0 ==> Executed(query, rows, batchSize, sink, calls, outcome))
  }

  method Save<T>(query: string, rows: seq<T>, batchSize: int, sink: Sink)
    returns (calls: seq<Execute<T>>, outcome: Outcome<Error>)
    ensures Saved(query, rows, batchSize, sink, calls, outcome)
  {
    if |rows| == 0 {
      return [], Pass;
    }
    calls, outcome := ExecuteQuery(query, rows, batchSize, sink);
  }

  /** `save_repositories`: into `test.repositories`. */
  method SaveRepositories<T>(rows: seq<T>, batchSize: int, sink: Sink)
    returns (calls: seq<Execute<T>>, outcome: Outcome<Error>)
    ensures Saved(RepositoriesQuery, rows, batchSize, sink, calls, outcome)
  {
    calls, outcome := Save(RepositoriesQuery, rows, batchSize, sink);
  }

  /** `save_positions`: into `test.repositories_positions`. */
  method SavePositions<T>(rows: seq<T>, batchSize: int, sink: Sink)
    returns (calls: seq<Execute<T>>, outcome: Outcome<Error>)
    ensures Saved(PositionsQuery, rows, batchSize, sink, calls, outcome)
  {
    calls, outcome := Save(PositionsQuery, rows, batchSize, sink);
  }

  /** `save_commits`: into `test.repositories_authors_commits`. */
  method SaveCommits<T>(rows: seq<T>, batchSize: int, sink: Sink)
    returns (calls: seq<Execute<T>>, outcome: Outcome<Error>)
    ensures Saved(CommitsQuery, rows, batchSize, sink, calls, outcome)
  {
    calls, outcome := Save(CommitsQuery, rows, batchSize, sink);
  }
}

=== FILE: commits.dfy ===
/** The per-author commit tally of `_process_repository` (task2_and_task3/main.py):
    a fold over the commit list into an insertion-ordered dict from author login
    to count, then converted to a list of `RepositoryAuthorCommitsNum`. */
module Commits {
  import opened Wrappers
  import opened Errors
  import opened Json

  /** One `RepositoryAuthorCommitsNum`: an author and how many of the commits are theirs. */
  datatype AuthorCommits = AuthorCommits(author: Json, commitsNum: int)

  /** The author column of a tally, in order. */
  function Authors(counts: seq<AuthorCommits>): (r: seq<Json>)
    ensures |r| == |counts|
    ensures forall i :: 0 <= i < |counts| ==> r[i] == counts[i].author
  {
    if |counts| == 0 then [] else [counts[0].author] + Authors(counts[1..])
  }

  /** The count recorded for `a` (its first entry), or 0 if `a` has no entry. */
  function CountFor(counts: seq<AuthorCommits>, a: Json): int {
    if |counts| == 0 then 0
    else if counts[0].author == a then counts[0].commitsNum
    else CountFor(counts[1..], a)
  }

  /** The sum of all counts in a tally. */
  function Total(counts: seq<AuthorCommits>): int {
    if |counts| == 0 then 0 else counts[0].commitsNum + Total(counts[1..])
  }

  /** The position of the first occurrence of `a` in `s`, or `|s|` if it does not occur. */
  function FirstIndex(s: seq<Json>, a: Json): nat {
    if |s| == 0 then 0 else if s[0] == a then 0 else 1 + FirstIndex(s[1..], a)
  }

  ghost predicate Distinct(s: seq<Json>) {
    forall i, j :: 0 <= i < j < |s| ==> s[i] != s[j]
  }

  /** A commit is attributed when it is a dict whose `author` is truthy. */
  predicate Attributed(commit: Json) {
    commit.JObj? && "author" in commit.fields && Truthy(commit.fields["author"])
  }

  /** How many commits of the list carry a truthy `author`. */
  function NumAttributed(commits: seq<Json>): nat {
    if |commits| == 0 then 0
    else (if Attributed(commits[0]) then 1 else 0) + NumAttributed(commits[1..])
  }

  /** One iteration of the loop, up to the dict key: `None` when `commit.get("author")`
      is falsy, else the author's `login` or "unknown"; failures for `.get` on a
      non-dict and for an unhashable login. */
  function AuthorKey(commit: Json): (r: Result<Option<Json>, Error>)
    ensures r == Success(None) <==> commit.JObj? && !Attributed(commit)
    ensures r.Success? && r.value.Some? ==> Attributed(commit) && Hashable(r.value.value)
  {
    match commit
    case JObj(c) =>
      if "author" !in c || !Truthy(c["author"]) then Success(None)
      else (
        match c["author"]
        case JObj(a) =>
          var login := GetOr(a, "login", JStr("unknown"));
          if Hashable(login) then Success(Some(login)) else Failure(TypeError)
        case _ => Failure(AttributeError)
      )
    case _ => Failure(AttributeError)
  }

  /** `authors_count[author] = authors_count.get(author, 0) + 1` on an insertion-ordered dict:
      the entry of `key` is incremented in place, or a new entry with count 1 is appended. */
  function Bump(counts: seq<AuthorCommits>, key: Json): (r: seq<AuthorCommits>)
    ensures key in Authors(r)
    ensures |r| == |counts| + (if key in Authors(counts) then 0 else 1)
  {
    if |counts| == 0 then [AuthorCommits(key, 1)]
    else if counts[0].author == key then [counts[0].(commitsNum := counts[0].commitsNum + 1)] + counts[1..]
    else [counts[0]] + Bump(counts[1..], key)
  }

  /** The whole loop and the conversion to a list, as a left fold: the first commit
      that raises aborts the tally. */
  function CountAuthors(commits: seq<Json>): (r: Result<seq<AuthorCommits>, Error>)
    ensures r.Success? ==> |r.value| <= |commits|
  {
    if |commits| == 0 then Success([])
    else
      var counts :- CountAuthors(commits[..|commits| - 1]);
      var key :- AuthorKey(commits[|commits| - 1]);
      Success(if key.Some? then Bump(counts, key.value) else counts)
  }

  /** Reference definition: the sequence of author keys the commits are counted under,
      in commit order, with unattributed commits filtered out; it fails with the
      error of the first commit that cannot be keyed. */
  function AttributedLogins(commits: seq<Json>): (r: Result<seq<Json>, Error>)
    ensures r.Success? ==> |r.value| == NumAttributed(commits) <= |commits|
  {
    if |commits| == 0 then Success([])
    else
      match AuthorKey(commits[0])
      case Failure(e) => Failure(e)
      case Success(None) => AttributedLogins(commits[1..])
      case Success(Some(k)) =>
        match AttributedLogins(commits[1..])
        case Failure(e) => Failure(e)
        case Success(rest) => Success([k] + rest)
  }

  /** What it means for `counts` to be the tally of the key sequence `keys`:
      one entry per distinct key, ordered by first appearance, each count the
      number of occurrences of its key, all counts positive, summing to `|keys|`. */
  ghost predicate Tallies(counts: seq<AuthorCommits>, keys: seq<Json>) {
    && Distinct(Authors(counts))
    && (forall a :: a in Authors(counts) <==> a in keys)
    && (forall a :: CountFor(counts, a) == multiset(keys)[a])
    && (forall i :: 0 <= i < |counts| ==> counts[i].commitsNum >= 1)
    && (forall i, j :: 0 <= i < j < |counts| ==>
          FirstIndex(keys, counts[i].author) < FirstIndex(keys, counts[j].author))
    && Total(counts) == |keys|
  }

  // ---------------------------------------------------------------------------
  // Lemmas about one Bump

  lemma {:induction false} BumpAuthors(counts: seq<AuthorCommits>, key: Json)
    ensures Authors(Bump(counts, key)) ==
      if key in Authors(counts) then Authors(counts) else Authors(counts) + [key]
  {
    if |counts| == 0 {
    } else if counts[0].author == key {
      assert Bump(counts, key)[1..] == counts[1..];
    } else {
      BumpAuthors(counts[1..], key);
      assert Bump(counts, key)[1..] == Bump(counts[1..], key);
      assert Authors(counts) == [counts[0].author] + Authors(counts[1..]);
    }
  }

  lemma {:induction false} BumpCountFor(counts: seq<AuthorCommits>, key: Json, a: Json)
    ensures CountFor(Bump(counts, key), a) == CountFor(counts, a) + (if a == key then 1 else 0)
  {
    if |counts| == 0 {
    } else if counts[0].author == key {
      assert Bump(counts, key)[1..] == counts[1..];
    } else {
      BumpCountFor(counts[1..], key, a);
      assert Bump(counts, key)[1..] == Bump(counts[1..], key);
    }
  }

  lemma {:induction false} BumpTotal(counts: seq<AuthorCommits>, key: Json)
    ensures Total(Bump(counts, key)) == Total(counts) + 1
  {
    if |counts| == 0 {
    } else if counts[0].author == key {
      assert Bump(counts, key)[1..] == counts[1..];
    } else {
      BumpTotal(counts[1..], key);
      assert Bump(counts, key)[1..] == Bump(counts[1..], key);
    }
  }

  lemma {:induction false} BumpPositive(counts: seq<AuthorCommits>, key: Json)
    requires forall i :: 0 <= i < |counts| ==> counts[i].commitsNum >= 1
    ensures forall i :: 0 <= i < |Bump(counts, key)| ==> Bump(counts, key)[i].commitsNum >= 1
  {
    if |counts| == 0 {
    } else if counts[0].author == key {
    } else {
      BumpPositive(counts[1..], key);
      var b := Bump(counts, key);
      assert b[1..] == Bump(counts[1..], key);
      forall i | 0 <= i < |b| ensures b[i].commitsNum >= 1 {
        if i > 0 {
          assert b[i] == b[1..][i - 1];
        }
      }
    }
  }

  lemma {:induction false} FirstIndexSnoc(s: seq<Json>, k: Json, a: Json)
    ensures a in s ==> FirstIndex(s, a) < |s| && FirstIndex(s + [k], a) == FirstIndex(s, a)
    ensures a !in s && a == k ==> FirstIndex(s + [k], a) == |s|
  {
    if |s| == 0 {
    } else {
      assert (s + [k])[1..] == s[1..] + [k];
      FirstIndexSnoc(s[1..], k, a);
    }
  }

  lemma TalliesStepOrder(counts: seq<AuthorCommits>, keys: seq<Json>, key: Json)
    requires Tallies(counts, keys)
    ensures forall i, j :: 0 <= i < j < |Bump(counts, key)| ==>
      FirstIndex(keys + [key], Bump(counts, key)[i].author) < FirstIndex(keys + [key], Bump(counts, key)[j].author)
  {
    var b := Bump(counts, key);
    var keys' := keys + [key];
    BumpAuthors(counts, key);
    forall i, j | 0 <= i < j < |b|
      ensures FirstIndex(keys', b[i].author) < FirstIndex(keys', b[j].author)
    {
      FirstIndexSnoc(keys, key, b[i].author);
      FirstIndexSnoc(keys, key, b[j].author);
      assert Authors(b)[i] == b[i].author && Authors(b)[j] == b[j].author;
      if j < |counts| {
        assert Authors(counts)[i] == b[i].author && Authors(counts)[j] == b[j].author;
        assert b[i].author in keys && b[j].author in keys;
      } else {
        assert Authors(counts)[i] == b[i].author;
        assert b[i].author in keys;
        assert b[j].author == key && key !in keys;
      }
    }
  }

  lemma TalliesStepMembers(counts: seq<AuthorCommits>, keys: seq<Json>, key: Json)
    requires Tallies(counts, keys)
    ensures Distinct(Authors(Bump(counts, key)))
    ensures forall a :: a in Authors(Bump(counts, key)) <==> a in keys + [key]
  {
    BumpAuthors(counts, key);
  }

  lemma TalliesStepCounts(counts: seq<AuthorCommits>, keys: seq<Json>, key: Json)
    requires Tallies(counts, keys)
    ensures forall a :: CountFor(Bump(counts, key), a) == multiset(keys + [key])[a]
    ensures Total(Bump(counts, key)) == |keys + [key]|
    ensures forall i :: 0 <= i < |Bump(counts, key)| ==> Bump(counts, key)[i].commitsNum >= 1
  {
    BumpTotal(counts, key);
    BumpPositive(counts, key);
    forall a ensures CountFor(Bump(counts, key), a) == multiset(keys + [key])[a] {
      BumpCountFor(counts, key, a);
    }
  }

  /** Counting one more key keeps the tally invariant. */
  lemma TalliesStep(counts: seq<AuthorCommits>, keys: seq<Json>, key: Json)
    requires Tallies(counts, keys)
    ensures Tallies(Bump(counts, key), keys + [key])
  {
    TalliesStepOrder(counts, keys, key);
    TalliesStepMembers(counts, keys, key);
    TalliesStepCounts(counts, keys, key);
  }

  lemma {:induction false} AttributedLoginsSnoc(commits: seq<Json>, c: Json)
    ensures AttributedLogins(commits + [c]) ==
      match AttributedLogins(commits)
      case Failure(e) => Failure(e)
      case Success(keys) =>
        match AuthorKey(c)
        case Failure(e) => Failure(e)
        case Success(None) => Success(keys)
        case Success(Some(k)) => Success(keys + [k])
  {
    if |commits| == 0 {
      assert commits + [c] == [c];
      assert [c][1..] == [];
      assert AttributedLogins([c][1..]) == Success([]);
      if AuthorKey(c).Success? && AuthorKey(c).value.Some? {
        var k := AuthorKey(c).value.value;
        assert [k] + [] == commits + [k];
      }
    } else {
      assert (commits + [c])[0] == commits[0];
      assert (commits + [c])[1..] == commits[1..] + [c];
      AttributedLoginsSnoc(commits[1..], c);
      match AuthorKey(commits[0]) {
        case Failure(_) =>
        case Success(None) =>
        case Success(Some(h)) =>
          match AttributedLogins(commits[1..]) {
            case Failure(_) =>
            case Success(rest) =>
              match AuthorKey(c) {
                case Failure(_) =>
                case Success(None) =>
                case Success(Some(k)) =>
                  assert [h] + (rest + [k]) == ([h] + rest) + [k];
              }
          }
      }
    }
  }

  lemma {:induction false} CountForEntry(counts: seq<AuthorCommits>, i: nat)
    requires i < |counts|
    requires Distinct(Authors(counts))
    ensures CountFor(counts, counts[i].author) == counts[i].commitsNum
  {
    if i > 0 {
      assert Authors(counts)[0] != Authors(counts)[i];
      assert Authors(counts[1..]) == Authors(counts)[1..];
      CountForEntry(counts[1..], i - 1);
    }
  }

  /** The tally the loop builds has every property of `Tallies` with respect to the
      attributed keys, and fails exactly when the key sequence fails, with the same error. */
  lemma {:induction false} CountAuthorsTallies(commits: seq<Json>)
    ensures CountAuthors(commits).Success? <==> AttributedLogins(commits).Success?
    ensures CountAuthors(commits).Failure? ==>
      CountAuthors(commits).error == AttributedLogins(commits).error
    ensures CountAuthors(commits).Success? ==>
      Tallies(CountAuthors(commits).value, AttributedLogins(commits).value)
  {
    if |commits| == 0 {
    } else {
      var prefix := commits[..|commits| - 1];
      var last := commits[|commits| - 1];
      assert commits == prefix + [last];
      CountAuthorsTallies(prefix);
      AttributedLoginsSnoc(prefix, last);
      if CountAuthors(prefix).Success? {
        match AuthorKey(last) {
          case Failure(_) =>
          case Success(None) =>
          case Success(Some(k)) =>
            TalliesStep(CountAuthors(prefix).value, AttributedLogins(prefix).value, k);
        }
      }
    }
  }

  lemma {:induction false} AttributedLoginsFailure(commits: seq<Json>)
    ensures AttributedLogins(commits).Success? <==>
      forall i :: 0 <= i < |commits| ==> AuthorKey(commits[i]).Success?
    ensures AttributedLogins(commits).Failure? ==>
      exists i :: 0 <= i < |commits| && AuthorKey(commits[i]) == Failure(AttributedLogins(commits).error)
        && forall j :: 0 <= j < i ==> AuthorKey(commits[j]).Success?
  {
    if |commits| > 0 {
      AttributedLoginsFailure(commits[1..]);
      if AuthorKey(commits[0]).Success? {
        if AttributedLogins(commits[1..]).Failure? {
          var i :| 0 <= i < |commits[1..]| && AuthorKey(commits[1..][i]) == Failure(AttributedLogins(commits[1..]).error)
            && forall j :: 0 <= j < i ==> AuthorKey(commits[1..][j]).Success?;
          assert AuthorKey(commits[i + 1]) == Failure(AttributedLogins(commits).error);
          forall j | 0 <= j < i + 1 ensures AuthorKey(commits[j]).Success? {
            if j > 0 {
              assert commits[j] == commits[1..][j - 1];
            }
          }
        } else {
          forall i | 0 <= i < |commits| ensures AuthorKey(commits[i]).Success? {
            if i > 0 {
              assert commits[i] == commits[1..][i - 1];
            }
          }
        }
      }
    }
  }

  /** The tally of a commit list, on success: the authors are distinct and in order of
      first appearance among the attributed commits, each count is that author's number
      of attributed commits and at least 1, and the counts sum to the number of attributed
      commits, at most the list length; an empty list tallies to nothing. */
  lemma CountAuthorsCorrect(commits: seq<Json>)
    ensures |commits| == 0 ==> CountAuthors(commits) == Success([])
    ensures CountAuthors(commits).Success? <==> AttributedLogins(commits).Success?
    ensures CountAuthors(commits).Success? ==>
      var counts, keys := CountAuthors(commits).value, AttributedLogins(commits).value;
      && Tallies(counts, keys)
      && (forall i :: 0 <= i < |counts| ==> counts[i].commitsNum == multiset(keys)[counts[i].author])
      && Total(counts) == NumAttributed(commits) <= |commits|
  {
    CountAuthorsTallies(commits);
    if CountAuthors(commits).Success? {
      var counts, keys := CountAuthors(commits).value, AttributedLogins(commits).value;
      forall i | 0 <= i < |counts| ensures counts[i].commitsNum == multiset(keys)[counts[i].author] {
        CountForEntry(counts, i);
      }
    }
  }

  /** The tally succeeds exactly when every commit can be keyed, and otherwise fails with
      the error of the first commit that cannot: no partial tally is returned. */
  lemma CountAuthorsFailure(commits: seq<Json>)
    ensures CountAuthors(commits).Success? <==>
      forall i :: 0 <= i < |commits| ==> AuthorKey(commits[i]).Success?
    ensures CountAuthors(commits).Failure? ==>
      exists i :: 0 <= i < |commits| && AuthorKey(commits[i]) == Failure(CountAuthors(commits).error)
        && forall j :: 0 <= j < i ==> AuthorKey(commits[j]).Success?
  {
    CountAuthorsTallies(commits);
    AttributedLoginsFailure(commits);
  }

  /** A commit whose `author` is missing, null or otherwise falsy changes no count. */
  lemma UnattributedCommitIsSkipped(commits: seq<Json>, c: Json)
    requires c.JObj? && !Attributed(c)
    ensures CountAuthors(commits + [c]) == CountAuthors(commits)
  {
    assert (commits + [c])[..|commits|] == commits;
  }

  /** A commit whose `author` is a non-empty object without `login` is counted under "unknown":
      that count rises by one and every other author's count is unchanged. */
  lemma LoginlessAuthorCountsAsUnknown(commits: seq<Json>, c: Json)
    requires c.JObj? && "author" in c.fields && c.fields["author"].JObj?
    requires |c.fields["author"].fields| > 0 && "login" !in c.fields["author"].fields
    requires CountAuthors(commits).Success?
    ensures CountAuthors(commits + [c]).Success?
    ensures forall a ::
              CountFor(CountAuthors(commits + [c]).value, a) ==
              CountFor(CountAuthors(commits).value, a) + (if a == JStr("unknown") then 1 else 0)
  {
    var a := c.fields["author"];
    assert Truthy(a);
    assert GetOr(a.fields, "login", JStr("unknown")) == JStr("unknown");
    assert AuthorKey(c) == Success(Some(JStr("unknown")));
    var all := commits + [c];
    assert all[..|all| - 1] == commits && all[|all| - 1] == c;
    var counts := CountAuthors(commits).value;
    assert CountAuthors(all) == Success(Bump(counts, JStr("unknown")));
    forall a
      ensures CountFor(Bump(counts, JStr("unknown")), a) ==
              CountFor(counts, a) + (if a == JStr("unknown") then 1 else 0)
    {
      BumpCountFor(counts, JStr("unknown"), a);
    }
  }

  /** A commit whose `author` is an object with a hashable `login` is counted under that login:
      its count rises by one and every other author's count is unchanged. */
  lemma LoginAuthorCountsUnderLogin(commits: seq<Json>, c: Json, login: Json)
    requires c.JObj? && "author" in c.fields && c.fields["author"].JObj?
    requires "login" in c.fields["author"].fields && c.fields["author"].fields["login"] == login
    requires Hashable(login)
    requires CountAuthors(commits).Success?
    ensures CountAuthors(commits + [c]).Success?
    ensures forall a ::
              CountFor(CountAuthors(commits + [c]).value, a) ==
              CountFor(CountAuthors(commits).value, a) + (if a == login then 1 else 0)
  {
    var author := c.fields["author"];
    assert "login" in author.fields.Keys;
    assert Truthy(author);
    assert AuthorKey(c) == Success(Some(login));
    var all := commits + [c];
    assert all[..|all| - 1] == commits && all[|all| - 1] == c;
    var counts := CountAuthors(commits).value;
    assert CountAuthors(all) == Success(Bump(counts, login));
    forall a
      ensures CountFor(Bump(counts, login), a) == CountFor(counts, a) + (if a == login then 1 else 0)
    {
      BumpCountFor(counts, login, a);
    }
  }

  /** A null author is not bucketed under "unknown": of four commits by a, a, nobody and b,
      the tally is a:2, b:1 and has no "unknown" entry. */
  lemma NullAuthorExample()
    ensures
      var a := JObj(map["author" := JObj(map["login" := JStr("a")])]);
      var b := JObj(map["author" := JObj(map["login" := JStr("b")])]);
      var nobody := JObj(map["author" := JNull]);
      CountAuthors([a, a, nobody, b]) ==
        Success([AuthorCommits(JStr("a"), 2), AuthorCommits(JStr("b"), 1)])
  {
    var a := JObj(map["author" := JObj(map["login" := JStr("a")])]);
    var b := JObj(map["author" := JObj(map["login" := JStr("b")])]);
    var nobody := JObj(map["author" := JNull]);
    assert AuthorKey(a) == Success(Some(JStr("a")));
    assert AuthorKey(b) == Success(Some(JStr("b")));
    assert AuthorKey(nobody) == Success(None);
    var one := [AuthorCommits(JStr("a"), 1)];
    assert one[1..] == [];
    assert Bump(one, JStr("a")) == [AuthorCommits(JStr("a"), 2)];
    var two := [AuthorCommits(JStr("a"), 2)];
    assert two[1..] == [];
    assert Bump(two, JStr("b")) == [AuthorCommits(JStr("a"), 2), AuthorCommits(JStr("b"), 1)];
    assert [a][..0] == [];
    assert CountAuthors([a]) == Success([AuthorCommits(JStr("a"), 1)]);
    assert [a, a][..1] == [a];
    assert CountAuthors([a, a]) == Success([AuthorCommits(JStr("a"), 2)]);
    assert [a, a, nobody][..2] == [a, a];
    assert CountAuthors([a, a, nobody]) == Success([AuthorCommits(JStr("a"), 2)]);
    assert [a, a, nobody, b][..3] == [a, a, nobody];
  }

  /** With `author` written as a bare string rather than a user object, the first such commit
      makes `commit["author"].get` raise: the tally fails with `AttributeError`. */
  lemma StringAuthorExample()
    ensures
      var a := JObj(map["author" := JStr("a")]);
      var b := JObj(map["author" := JStr("b")]);
      var nobody := JObj(map["author" := JNull]);
      CountAuthors([a, a, nobody, b]) == Failure(AttributeError)
  {
    var a := JObj(map["author" := JStr("a")]);
    var b := JObj(map["author" := JStr("b")]);
    var nobody := JObj(map["author" := JNull]);
    assert AuthorKey(a) == Failure(AttributeError);
    assert [a][..0] == [];
    assert CountAuthors([a]) == Failure(AttributeError);
    assert [a, a][..1] == [a];
    assert CountAuthors([a, a]) == Failure(AttributeError);
    assert [a, a, nobody][..2] == [a, a];
    assert CountAuthors([a, a, nobody]) == Failure(AttributeError);
    assert [a, a, nobody, b][..3] == [a, a, nobody];
  }
}

=== FILE: errors.dfy ===
/** The exceptions the core can raise, each named after the Python exception it models. */
module Errors {

  datatype Error =
    | KeyError(key: string)        // `d[key]` on a dict without `key`
    | AttributeError               // `.get` called on a value that is not a dict
    | TypeError                    // subscript or iteration of a non-container; an unhashable dict key
    | ClientError(detail: string)  // a failed GitHub request (`aiohttp.ClientError`)
    | ValueError                   // `range` called with a zero step
    | StorageError(batch: nat)     // the ClickHouse client rejected the `execute` call with this index
}

=== FILE: json.dfy ===
/** Decoded JSON values as the scraper sees them after `response.json()`,
    with Python's notion of truthiness and `dict.get`. */
module Json {

  /** A JSON value. Objects are Python dicts, keyed by string. */
  datatype Json =
    | JNull
    | JBool(b: bool)
    | JInt(i: int)
    | JStr(s: string)
    | JArr(items: seq<Json>)
    | JObj(fields: map<string, Json>)

  /** Python truthiness: `None`, `False`, `0`, `""`, `[]` and `{}` are false. */
  predicate Truthy(j: Json) {
    match j
    case JNull => false
    case JBool(b) => b
    case JInt(i) => i != 0
    case JStr(s) => |s| > 0
    case JArr(items) => |items| > 0
    case JObj(fields) => |fields| > 0
  }

  /** Lists and dicts cannot be dict keys in Python. */
  predicate Hashable(j: Json) {
    !j.JArr? && !j.JObj?
  }

  /** `d.get(key, default)`: the stored value when the key is present (even `null`), else the default. */
  function GetOr(d: map<string, Json>, key: string, default: Json): Json {
    if key in d then d[key] else default
  }
}

=== FILE: pipeline.dfy ===
/** `main` (task2_and_task3/main.py): collect the repositories, build the three row sets
    stamped with one timestamp, and hand them to the three `save_*` calls. The three saves
    are awaited together with `gather`; here they run one after the other, each against
    its own view of the ClickHouse client, and the run's outcome is the first failure in
    argument order. */
module Pipeline {
  import opened Wrappers
  import opened Errors
  import opened Json
  import opened Commits
  import opened Scraper
  import opened Rows
  import opened ClickHouse

  /** The rows of a successful collection: repository and position rows are one per
      repository and aligned with each other, positions run 1..n in search-response order,
      every row carries the run's timestamp, and within one repository no author has two
      commit rows. */
  lemma RowsOfCollection(search: Result<Json, Error>, fetch: CommitsApi, date: string)
    requires GetRepositories(search, fetch).Success?
    ensures
      var repos := GetRepositories(search, fetch).value;
      var repoRows, positionRows, commitRows :=
        RepositoryRows(repos, date), PositionRows(repos, date), CommitRows(repos, date);
      && |repoRows| == |positionRows| == |repos|
      && (forall i :: 0 <= i < |repos| ==> repoRows[i].name == positionRows[i].repo)
      && (forall i :: 0 <= i < |repos| ==> positionRows[i].position == i + 1)
      && (forall i :: 0 <= i < |repos| ==> repoRows[i].updated == date && positionRows[i].date == date)
      && (forall k :: 0 <= k < |commitRows| ==> commitRows[k].date == date)
      && |commitRows| == NumAuthorEntries(repos)
      && (forall i :: 0 <= i < |repos| ==> Distinct(Authors(repos[i].authors)))
  {
    var repos := GetRepositories(search, fetch).value;
    PositionsFollowResponseOrder(search, fetch);
    forall i | 0 <= i < |repos| ensures Distinct(Authors(repos[i].authors)) {
      var r := repos[i];
      CountAuthorsCorrect(fetch(r.owner, r.name).value);
    }
  }

  /** The outcome of `gather` over the three saves, taken in argument order. */
  function FirstFailure(o1: Outcome<Error>, o2: Outcome<Error>, o3: Outcome<Error>): (r: Outcome<Error>)
    ensures r.Pass? <==> o1.Pass? && o2.Pass? && o3.Pass?
    ensures r.Fail? ==> r == o1 || r == o2 || r == o3
  {
    if o1.Fail? then o1 else if o2.Fail? then o2 else o3
  }

  /** One run of `main`. A failed collection sends nothing to any table and is the run's
      failure; otherwise each table receives what its `save_*` sends for its row set, all
      three saves are attempted, and the run fails exactly when one of them does. */
  method Run(search: Result<Json, Error>, fetch: CommitsApi, date: string, batchSize: int,
             repoSink: Sink, positionSink: Sink, commitSink: Sink)
    returns (repoCalls: seq<Execute<RepositoryRow>>, repoOutcome: Outcome<Error>,
             positionCalls: seq<Execute<PositionRow>>, positionOutcome: Outcome<Error>,
             commitCalls: seq<Execute<CommitRow>>, commitOutcome: Outcome<Error>,
             outcome: Outcome<Error>)
    ensures GetRepositories(search, fetch).Failure? ==>
      && repoCalls == [] && positionCalls == [] && commitCalls == []
      && outcome == Fail(GetRepositories(search, fetch).error)
    ensures GetRepositories(search, fetch).Success? ==>
      var repos := GetRepositories(search, fetch).value;
      && Saved(RepositoriesQuery, RepositoryRows(repos, date), batchSize, repoSink, repoCalls, repoOutcome)
      && Saved(PositionsQuery, PositionRows(repos, date), batchSize, positionSink, positionCalls, positionOutcome)
      && Saved(CommitsQuery, CommitRows(repos, date), batchSize, commitSink, commitCalls, commitOutcome)
      && outcome == FirstFailure(repoOutcome, positionOutcome, commitOutcome)
  {
    var collected := GetRepositories(search, fetch);
    if collected.Failure? {
      return [], Pass, [], Pass, [], Pass, Fail(collected.error);
    }
    var repos := collected.value;
    repoCalls, repoOutcome := SaveRepositories(RepositoryRows(repos, date), batchSize, repoSink);
    positionCalls, positionOutcome := SavePositions(PositionRows(repos, date), batchSize, positionSink);
    commitCalls, commitOutcome := SaveCommits(CommitRows(repos, date), batchSize, commitSink);
    outcome := FirstFailure(repoOutcome, positionOutcome, commitOutcome);
  }

  /** A successful run with a positive batch size has stored every position row of the
      collection, in order, with positions 1..n, all stamped with the run's timestamp. */
  lemma StoredPositions(search: Result<Json, Error>, fetch: CommitsApi, date: string, batchSize: int,
                        positionSink: Sink, positionCalls: seq<Execute<PositionRow>>, positionOutcome: Outcome<Error>)
    requires batchSize > 0
    requires GetRepositories(search, fetch).Success?
    requires Saved(PositionsQuery, PositionRows(GetRepositories(search, fetch).value, date),
                   batchSize, positionSink, positionCalls, positionOutcome)
    requires positionOutcome.Pass?
    ensures |Concat(positionCalls)| == |SearchItems(search.value).value|
    ensures forall k :: 0 <= k < |Concat(positionCalls)| ==>
      Concat(positionCalls)[k].position == k + 1 && Concat(positionCalls)[k].date == date
  {
    var repos := GetRepositories(search, fetch).value;
    RowsOfCollection(search, fetch, date);
    PositionsFollowResponseOrder(search, fetch);
  }
}

=== FILE: rows.dfy ===
/** The three row sets `main` builds from the collected repositories
    (task2_and_task3/main.py), every row stamped with the one run timestamp
    `date_today`, which the model takes as an opaque string. */
module Rows {
  import opened Json
  import opened Commits
  import opened Scraper

  /** `(name, owner, stars, watchers, forks, language, updated)` for `test.repositories`. */
  datatype RepositoryRow = RepositoryRow(
    name: Json, owner: Json, stars: Json, watchers: Json, forks: Json, language: Json, updated: string)

  /** `(date, repo, position)` for `test.repositories_positions`. */
  datatype PositionRow = PositionRow(date: string, repo: Json, position: int)

  /** `(date, repo, author, commits_num)` for `test.repositories_authors_commits`. */
  datatype CommitRow = CommitRow(date: string, repo: Json, author: Json, commitsNum: int)

  function RepositoryRows(repos: seq<Repository>, date: string): (rows: seq<RepositoryRow>)
    ensures |rows| == |repos|
  {
    seq(|repos|, i requires 0 <= i < |repos| =>
      var r := repos[i];
      RepositoryRow(r.name, r.owner, r.stars, r.watchers, r.forks, r.language, date))
  }

  function PositionRows(repos: seq<Repository>, date: string): (rows: seq<PositionRow>)
    ensures |rows| == |repos|
  {
    seq(|repos|, i requires 0 <= i < |repos| => PositionRow(date, repos[i].name, repos[i].position))
  }

  /** The rows of one repository's author tally, in tally order. */
  function AuthorRows(repo: Repository, date: string): (rows: seq<CommitRow>)
    ensures |rows| == |repo.authors|
  {
    seq(|repo.authors|, j requires 0 <= j < |repo.authors| =>
      CommitRow(date, repo.name, repo.authors[j].author, repo.authors[j].commitsNum))
  }

  /** How many author entries the repositories carry in all. */
  function NumAuthorEntries(repos: seq<Repository>): nat {
    if |repos| == 0 then 0 else |repos[0].authors| + NumAuthorEntries(repos[1..])
  }

  /** The nested comprehension `for r in repos_data for ac in r.authors_commits_num_today`:
      every repository's author rows, repository by repository. */
  function CommitRows(repos: seq<Repository>, date: string): (rows: seq<CommitRow>)
    ensures |rows| == NumAuthorEntries(repos)
    ensures forall k :: 0 <= k < |rows| ==> rows[k].date == date
  {
    if |repos| == 0 then []
    else
      var rest := CommitRows(repos[1..], date);
      AuthorRows(repos[0], date) + rest
  }

  /** The commit row of one author entry of one repository. */
  function EntryRow(repo: Repository, j: nat, date: string): CommitRow
    requires j < |repo.authors|
  {
    CommitRow(date, repo.name, repo.authors[j].author, repo.authors[j].commitsNum)
  }

  /** The commit rows are exactly the rows of the repositories' author entries: each entry
      has its row, and each row is the row of some entry. */
  lemma {:induction false} CommitRowsCover(repos: seq<Repository>, date: string)
    ensures forall i, j :: 0 <= i < |repos| && 0 <= j < |repos[i].authors| ==>
      EntryRow(repos[i], j, date) in CommitRows(repos, date)
    ensures forall row :: row in CommitRows(repos, date) ==>
      exists i, j :: 0 <= i < |repos| && 0 <= j < |repos[i].authors| && row == EntryRow(repos[i], j, date)
  {
    if |repos| > 0 {
      var tail := repos[1..];
      CommitRowsCover(tail, date);
      var head := AuthorRows(repos[0], date);
      var rows := CommitRows(repos, date);
      assert rows == head + CommitRows(tail, date);
      forall i, j | 0 <= i < |repos| && 0 <= j < |repos[i].authors|
        ensures EntryRow(repos[i], j, date) in rows
      {
        if i == 0 {
          assert head[j] == EntryRow(repos[0], j, date);
        } else {
          assert repos[i] == tail[i - 1];
        }
      }
      forall row | row in rows
        ensures exists i, j :: 0 <= i < |repos| && 0 <= j < |repos[i].authors| && row == EntryRow(repos[i], j, date)
      {
        if row in head {
          var j :| 0 <= j < |head| && head[j] == row;
          assert row == EntryRow(repos[0], j, date);
        } else {
          assert row in CommitRows(tail, date);
          var i, j :| 0 <= i < |tail| && 0 <= j < |tail[i].authors| && row == EntryRow(tail[i], j, date);
          assert tail[i] == repos[i + 1];
        }
      }
    }
  }
}

=== FILE: scraper.dfy ===
/** The data shaping of `GithubReposScraper` (task2_and_task3/main.py): picking the
    `items` out of the search response, turning each raw repository dict into a
    `Repository`, and numbering the repositories by their place in the response.
    The GitHub API is a parameter: `search` is the decoded search response (or the
    request's failure), `fetch` maps `(owner, name)` to the decoded commits list. */
module Scraper {
  import opened Wrappers
  import opened Errors
  import opened Json
  import opened Commits

  /** The `Repository` dataclass. Values are copied from the raw dict as they are; Python
      checks none of the declared field types. */
  datatype Repository = Repository(
    name: Json,
    owner: Json,
    position: int,
    stars: Json,
    watchers: Json,
    forks: Json,
    language: Json,
    authors: seq<AuthorCommits>)

  /** The commits endpoint as seen during one run. */
  type CommitsApi = (Json, Json) -> Result<seq<Json>, Error>

  /** `d[key]`: raises `KeyError` when the key is absent. */
  function Field(d: map<string, Json>, key: string): Result<Json, Error> {
    if key in d then Success(d[key]) else Failure(KeyError(key))
  }

  /** `j[key]` for a value that may not be a dict: anything but a dict raises `TypeError`. */
  function Subscript(j: Json, key: string): Result<Json, Error> {
    match j
    case JObj(d) => Field(d, key)
    case _ => Failure(TypeError)
  }

  /** The fields whose absence makes `_process_repository` raise: `owner.login`,
      `stargazers_count`, `watchers_count` and `forks_count`. */
  predicate HasRequiredFields(d: map<string, Json>) {
    && "owner" in d && d["owner"].JObj? && "login" in d["owner"].fields
    && "stargazers_count" in d
    && "watchers_count" in d
    && "forks_count" in d
  }

  /** `_process_repository(repo_data, position)`. */
  function ProcessRepository(repo: Json, position: int, fetch: CommitsApi): (r: Result<Repository, Error>)
    ensures r.Success? ==> repo.JObj? && HasRequiredFields(repo.fields)
    ensures r.Success? ==>
      var d := repo.fields;
      && r.value.position == position
      && r.value.owner == d["owner"].fields["login"]
      && r.value.stars == d["stargazers_count"]
      && r.value.watchers == d["watchers_count"]
      && r.value.forks == d["forks_count"]
      && r.value.name == (if "name" in d then d["name"] else JStr("UNKNOWN"))
      && r.value.language == (if "language" in d then d["language"] else JStr("Unknown"))
      && fetch(r.value.owner, r.value.name).Success?
      && CountAuthors(fetch(r.value.owner, r.value.name).value) == Success(r.value.authors)
  {
    match repo
    case JObj(d) =>
      var name := GetOr(d, "name", JStr("UNKNOWN"));
      var ownerObj :- Field(d, "owner");
      var owner :- Subscript(ownerObj, "login");
      var commits :- fetch(owner, name);
      var authors :- CountAuthors(commits);
      var stars :- Field(d, "stargazers_count");
      var watchers :- Field(d, "watchers_count");
      var forks :- Field(d, "forks_count");
      var language := GetOr(d, "language", JStr("Unknown"));
      Success(Repository(name, owner, position, stars, watchers, forks, language, authors))
    case _ => Failure(AttributeError)
  }

  /** `data.get("items", [])` followed by `len` and `enumerate` on the result: an absent
      `items` is the empty list; an empty string or dict enumerates to nothing; a non-empty
      string or dict enumerates to strings, on which `.get` raises; anything else is not
      iterable. */
  function SearchItems(data: Json): (r: Result<seq<Json>, Error>)
    ensures data.JObj? && "items" !in data.fields ==> r == Success([])
    ensures data.JObj? && "items" in data.fields && data.fields["items"].JArr? ==>
      r == Success(data.fields["items"].items)
  {
    match data
    case JObj(d) =>
      if "items" !in d then Success([])
      else (
        match d["items"]
        case JArr(items) => Success(items)
        case JObj(f) => if |f| == 0 then Success([]) else Failure(AttributeError)
        case JStr(s) => if |s| == 0 then Success([]) else Failure(AttributeError)
        case _ => Failure(TypeError)
      )
    case _ => Failure(AttributeError)
  }

  /** `asyncio.gather` over one task per item, run one after the other: the item at
      offset i is processed with position `first + i`, results are kept in item order, and
      the first failure in item order aborts the whole collection. */
  function Gather<T>(items: seq<Json>, first: int, task: (Json, int) -> Result<T, Error>): (r: Result<seq<T>, Error>)
    ensures r.Success? ==> |r.value| == |items|
  {
    if |items| == 0 then Success([])
    else
      var head :- task(items[0], first);
      var rest :- Gather(items[1..], first + 1, task);
      Success([head] + rest)
  }

  /** All-or-nothing: the collection succeeds exactly when every task does; the result then
      holds every task's value in item order, the one at offset i computed with position
      `first + i`; otherwise the error is that of the first failing task. */
  lemma {:induction false} GatherSpec<T>(items: seq<Json>, first: int, task: (Json, int) -> Result<T, Error>)
    ensures Gather(items, first, task).Success? <==>
      forall i :: 0 <= i < |items| ==> task(items[i], first + i).Success?
    ensures Gather(items, first, task).Success? ==>
      forall i :: 0 <= i < |items| ==> task(items[i], first + i) == Success(Gather(items, first, task).value[i])
    ensures Gather(items, first, task).Failure? ==>
      exists i :: 0 <= i < |items| && task(items[i], first + i) == Failure(Gather(items, first, task).error)
        && forall j :: 0 <= j < i ==> task(items[j], first + j).Success?
  {
    if |items| > 0 {
      var tail := items[1..];
      GatherSpec(tail, first + 1, task);
      var r := Gather(items, first, task);
      if task(items[0], first).Success? {
        var head := task(items[0], first).value;
        if Gather(tail, first + 1, task).Success? {
          var rest := Gather(tail, first + 1, task).value;
          assert r == Success([head] + rest);
          forall i | 0 <= i < |items|
            ensures task(items[i], first + i) == Success(r.value[i])
          {
            if i > 0 {
              assert items[i] == tail[i - 1];
              assert r.value[i] == rest[i - 1];
            }
          }
        } else {
          var i :| 0 <= i < |tail| && task(tail[i], first + 1 + i) == Failure(r.error)
            && forall j :: 0 <= j < i ==> task(tail[j], first + 1 + j).Success?;
          assert items[i + 1] == tail[i];
          assert task(items[i + 1], first + (i + 1)) == Failure(r.error);
          forall j | 0 <= j < i + 1 ensures task(items[j], first + j).Success? {
            if j > 0 {
              assert items[j] == tail[j - 1];
            }
          }
        }
      }
    }
  }

  /** `get_repositories`: the search request, its `items`, and the numbered collection. */
  function GetRepositories(search: Result<Json, Error>, fetch: CommitsApi): (r: Result<seq<Repository>, Error>)
    ensures search.Failure? ==> r == Failure(search.error)
    ensures r.Success? ==>
      search.Success? && SearchItems(search.value).Success? && |r.value| == |SearchItems(search.value).value|
  {
    var data :- search;
    var items :- SearchItems(data);
    Gather(items, 1, (repo, position) => ProcessRepository(repo, position, fetch))
  }

  /** A search response without `items` yields an empty collection. */
  lemma AbsentItemsYieldNothing(data: Json, fetch: CommitsApi)
    requires data.JObj? && "items" !in data.fields
    ensures GetRepositories(Success(data), fetch) == Success([])
  {
  }

  /** A successful collection has one repository per search item, in response order, the
      one at index i processed with position i + 1, so positions are exactly 1..n ascending. */
  lemma PositionsFollowResponseOrder(search: Result<Json, Error>, fetch: CommitsApi)
    requires GetRepositories(search, fetch).Success?
    ensures search.Success? && SearchItems(search.value).Success?
    ensures
      var items, repos := SearchItems(search.value).value, GetRepositories(search, fetch).value;
      && |repos| == |items|
      && (forall i :: 0 <= i < |repos| ==> repos[i].position == i + 1)
      && (forall i :: 0 <= i < |repos| ==> ProcessRepository(items[i], i + 1, fetch) == Success(repos[i]))
  {
    var items := SearchItems(search.value).value;
    GatherSpec(items, 1, (repo, position) => ProcessRepository(repo, position, fetch));
  }

  /** One repository that lacks `owner.login`, `stargazers_count`, `watchers_count` or
      `forks_count` (or is not a dict at all) makes the whole collection fail. */
  lemma MissingFieldAbortsCollection(search: Result<Json, Error>, fetch: CommitsApi, i: nat)
    requires search.Success? && SearchItems(search.value).Success?
    requires i < |SearchItems(search.value).value|
    requires var repo := SearchItems(search.value).value[i];
      !repo.JObj? || !HasRequiredFields(repo.fields)
    ensures GetRepositories(search, fetch).Failure?
  {
    var items := SearchItems(search.value).value;
    GatherSpec(items, 1, (repo, position) => ProcessRepository(repo, position, fetch));
    assert ProcessRepository(items[i], 1 + i, fetch).Failure?;
  }

  /** The converse of `ProcessRepository`'s contract: a dict with every required field,
      whose commits request succeeds and whose commits can all be keyed, is processed
      successfully. */
  lemma ProcessRepositorySucceeds(repo: Json, position: int, fetch: CommitsApi)
    requires repo.JObj? && HasRequiredFields(repo.fields)
    requires var d := repo.fields;
      var name := if "name" in d then d["name"] else JStr("UNKNOWN");
      && fetch(d["owner"].fields["login"], name).Success?
      && CountAuthors(fetch(d["owner"].fields["login"], name).value).Success?
    ensures ProcessRepository(repo, position, fetch).Success?
  {
  }

  /** Which exception a malformed record raises, checked in the order `_process_repository`
      reads the record: a non-dict fails on `.get`; a missing `owner` or `login` is a
      `KeyError` of that key, and a non-dict owner a `TypeError`, all before the commits are
      fetched; once the fetch and the tally succeed, the first missing count field is a
      `KeyError` of that key. */
  lemma MalformedRecordError(repo: Json, position: int, fetch: CommitsApi)
    ensures !repo.JObj? ==> ProcessRepository(repo, position, fetch) == Failure(AttributeError)
    ensures repo.JObj? && "owner" !in repo.fields ==>
      ProcessRepository(repo, position, fetch) == Failure(KeyError("owner"))
    ensures repo.JObj? && "owner" in repo.fields && !repo.fields["owner"].JObj? ==>
      ProcessRepository(repo, position, fetch) == Failure(TypeError)
    ensures (repo.JObj? && "owner" in repo.fields && repo.fields["owner"].JObj?
             && "login" !in repo.fields["owner"].fields) ==>
      ProcessRepository(repo, position, fetch) == Failure(KeyError("login"))
    ensures (repo.JObj? && "owner" in repo.fields && repo.fields["owner"].JObj?
             && "login" in repo.fields["owner"].fields) ==>
      var d := repo.fields;
      var commits := fetch(d["owner"].fields["login"], GetOr(d, "name", JStr("UNKNOWN")));
      && (commits.Failure? ==> ProcessRepository(repo, position, fetch) == Failure(commits.error))
      && (commits.Success? && CountAuthors(commits.value).Success? ==>
            && ("stargazers_count" !in d ==>
                  ProcessRepository(repo, position, fetch) == Failure(KeyError("stargazers_count")))
            && ("stargazers_count" in d && "watchers_count" !in d ==>
                  ProcessRepository(repo, position, fetch) == Failure(KeyError("watchers_count")))
            && ("stargazers_count" in d && "watchers_count" in d && "forks_count" !in d ==>
                  ProcessRepository(repo, position, fetch) == Failure(KeyError("forks_count"))))
  {
  }
}

=== FILE: wrappers.dfy ===
/** Failure-compatible wrappers: the Python exceptions of the scraper become `Failure`
    values that propagate with `:-`, the way an uncaught `raise` propagates. */
module Wrappers {

  datatype Option<+T> = None | Some(value: T)

  datatype Result<+T, +E> = Success(value: T) | Failure(error: E) {

    predicate IsFailure() {
      Failure?
    }

    function PropagateFailure<U>(): Result<U, E>
      requires Failure?
    {
      Failure(error)
    }

    function Extract(): T
      requires Success?
    {
      value
    }
  }

  /** The result of an operation that returns nothing (`-> None` in Python) or raises. */
  datatype Outcome<+E> = Pass | Fail(error: E)
}
